=== FILE: README.md ===
# Batched feature download, modelled in Dafny

`get_features_via_rest.py` downloads every feature of an ArcGIS feature
service layer. It first asks the service for the layer's object IDs. Then it
cuts that list into batches of `maxRecordCount` IDs and fetches each batch
with an inclusive range query, `OBJECTID >= x and OBJECTID <= y`. Two
procedures do the same cutting and differ in how each batch is merged:

- `by_json` keeps one JSON object in memory. Until it holds a `features`
  key, each response is copied over it whole. Once it holds one, only the
  `features` list of each later response is appended to it. A later response
  without `features` then raises a `KeyError`.
- `by_featureset` loads each batch as a feature set. It copies the batch into
  the output feature class when that class does not exist yet, and appends
  to it otherwise.

The model covers the partition (the batch count, the clamped end index,
the query bounds), the progress line printed before each batch, both merge
steps, and both loops. The loops are methods whose loop invariants tie them
to functional reference runs. On top of that the model proves:

- the index chunks cover every ID exactly once, in order;
- for IDs in ascending order, the query ranges also select every ID exactly once, and they are ordered and disjoint;
- the progress percentage starts at 0, rises strictly and stays below 100;
- when every batch is answered with features, both strategies gather the same features;
- when every earlier batch was answered with features, a failed request stops both strategies at the same batch, and so does a response without features after the first batch;
- a response without features as the first batch makes them part: `by_json` replaces it with the next response, or keeps it when it is the only batch, while `by_featureset` stops;
- downloading a non-empty layer listed by ascending object ID gives back the layer itself, with either strategy;
- with unsorted IDs the ranges can miss an ID.

Modules:

- `Wrappers`: `Option` and `Result`.
- `Partition`: the batch count, batch bounds and query plan, plus an independent chunking of the ID list.
- `Progress`: the progress lines.
- `Payload`: responses, the two merge steps, and the reference runs `JsonRun` and `FeaturesetRun`.
- `Download`: the two procedures as loops.
- `Service`: a layer and the range filter the service applies to it.
- `Strategies`: lemmas relating the two procedures.

Decisions that are part of the model:

- The network is a parameter `fetch: Query -> Option<Response>`. `None` means the request or the JSON decoding raised.
- A response is its metadata plus an optional feature list. `None` means the response has no `features` key.
- The empty dictionary `{}` that `by_json` starts from is `Response(map[], None)`.
- The output feature class is `Option<seq<Feature>>`. `None` means it does not exist.
- A batch size of 0 raises `ZeroDivisionError` in the ceiling division (lines 38 and 96). It is modelled as the error `DivisionByZero`.
- A negative batch size makes `range` empty, so the loop does nothing.
- The procedures have no preconditions.

## Model

| member | source | states |
|---|---|---|
| Partition.NumBatches | get_features_via_rest.py:38 | `-(-total // batch_size)` with floor division is zero exactly when there are no IDs |
| Partition.NumBatchesIsCeiling | get_features_via_rest.py:38 | the batch count is the ceiling of `total / batch_size`: `r` batches hold all IDs and `r - 1` do not |
| Partition.NumBatchesUnique | get_features_via_rest.py:38 | the ceiling property determines the batch count uniquely |
| Partition.NumBatchesStep | get_features_via_rest.py:38-40 | a non-empty list needs one batch more than what is left after the first `batch_size` IDs |
| Partition.BatchEnd | get_features_via_rest.py:44-50 | the batch end index `i_plus`, falling back to the last index, lies within the list, is less than `batch_size` past the start, and is either exactly `batch_size - 1` past it or the last index |
| Partition.BatchQuerySelects | get_features_via_rest.py:41-50 | for ascending IDs, the inclusive range `ids[i] .. ids[end]` contains `ids[j]` exactly when `i <= j < i + batch_size` |
| Partition.PlanFrom | get_features_via_rest.py:40-50 | the queries from stride start `i` are empty exactly when `i` is past the list |
| Partition.Plan | get_features_via_rest.py:40-50 | the plan has no query exactly when the ID list is empty |
| Partition.PlanFromLength | get_features_via_rest.py:38-40 | the strides from `i` produce `ceil((total - i) / batch_size)` queries |
| Partition.PlanLength | get_features_via_rest.py:38-40 | the loop issues exactly `num_batches` queries |
| Partition.PlanFromAt | get_features_via_rest.py:40-50 | the `k`-th query from stride start `i` is the batch query at index `i + k * batch_size`, which is in range |
| Partition.ChunksPartition | get_features_via_rest.py:40-50 | the independent chunking concatenates back to the ID list, has `num_batches` chunks, and every chunk holds 1 to `batch_size` IDs, with all but the last full |
| Partition.PlanFromMatchesChunks | get_features_via_rest.py:40-50 | the queries from stride `i` are the first and last IDs of the chunks of `ids[i..]` |
| Partition.PlanMatchesChunks | get_features_via_rest.py:40-50 | each planned query's bounds are the first and last ID of the corresponding chunk |
| Partition.PlanCoversEachIdOnce | get_features_via_rest.py:41-43 | for ascending IDs, every ID lies in exactly one query, the one numbered `j / batch_size`, so nothing is duplicated or skipped |
| Partition.PlanOrderedDisjoint | get_features_via_rest.py:41-50 | for ascending IDs, every range is non-empty and each ends below the start of every later one |
| Partition.ClampedLastBatchExample | get_features_via_rest.py:48-50 | 23 IDs in batches of 10 give the ranges 1-10, 11-20 and the clamped 21-23 |
| Partition.SingleIdExample | get_features_via_rest.py:44-50 | a single ID gives one query from that ID to itself |
| Partition.UnsortedIdsMissAnId | get_features_via_rest.py:41-43 | the promise needs ascending IDs: for the unsorted IDs 3, 1, 2 in batches of 2 the ranges are 3-1 and 2-2, and none contains ID 1 |
| Progress.Percent | get_features_via_rest.py:55 | the percentage is 0 for the first batch, never negative, and below 100 for every batch of the run |
| Progress.PercentIncreasing | get_features_via_rest.py:55 | a later batch reports a strictly larger percentage |
| Progress.ReportsProgress | get_features_via_rest.py:38-56 | one progress line per query, in plan order, numbered 1 to `num_batches`, each naming that count; the percentage starts at 0, rises strictly and stays below 100 |
| Payload.GatheredSnoc | get_features_via_rest.py:64-65 | answering one more query appends that batch's features after those gathered so far |
| Payload.JsonMerge | get_features_via_rest.py:64-67 | with no `features` key yet the batch becomes the accumulator; otherwise the batch's features are appended and the metadata kept; a batch without features then raises |
| Payload.JsonRunServed | get_features_via_rest.py:40-67 | when every query is answered with features, the JSON run ends with the first response's metadata and all batches' features in order, and an accumulator that had features is only extended |
| Payload.JsonRunFetchFails | get_features_via_rest.py:58 | a request failing at batch `k`, after earlier ones succeeded, ends the JSON run with that query's failure |
| Payload.JsonRunMissingFeatures | get_features_via_rest.py:64-65 | once a feature list has been seen, a response without `features` at batch `k` ends the JSON run with a missing-key error naming that query |
| Payload.JsonKeepsLoneFeaturelessBatch | get_features_via_rest.py:64-67 | a single response without `features` is copied in and is what the run hands on |
| Payload.JsonDropsFeaturelessFirstBatch | get_features_via_rest.py:64-67 | a first response without `features` is overwritten by the second: the run succeeds with the second batch's metadata and only the features of the batches after the first |
| Payload.FeaturesetWrite | get_features_via_rest.py:122-125 | copy-or-append leaves the output existing, holding its old contents followed by the batch |
| Payload.LoadFeatureSet | get_features_via_rest.py:117-118 | the load succeeds exactly when the response arrives with a feature list, and yields that list; a failed request is reported as such |
| Payload.FeaturesetRunServed | get_features_via_rest.py:98-125 | when every query is answered, the feature-set run completes; the output holds its old contents followed by all batches in order, and exists exactly when it existed before or some batch was written |
| Payload.FeaturesetRunAborts | get_features_via_rest.py:116-125 | a load failing at batch `k` stops the run with that error; the output keeps exactly the batches before `k`, and exists exactly when it existed before or `k > 0` |
| Download.ByJson | get_features_via_rest.py:28-69 | `by_json` up to the conversion: division by zero for batch size 0, the empty dict for no batches; otherwise the result of the reference run, with a prefix of the progress lines, all of them on success, and the failing query named in the last line; when all are served, the first metadata with all features |
| Download.JsonBatches | get_features_via_rest.py:36-69 | the loop computes the reference JSON run, printing the plan's progress lines in order up to the failing batch |
| Download.ByFeatureset | get_features_via_rest.py:89-128 | `by_featureset`: division by zero for batch size 0; otherwise the reference run; on abort the batches before the failing one stay written and that batch's query is in the last line; when all are served, the output holds its old contents followed by all batches |
| Download.FeaturesetBatches | get_features_via_rest.py:95-128 | the loop computes the reference feature-set run and its progress lines; on abort, what was written is exactly the answered prefix |
| Download.FeaturesetLoopStep | get_features_via_rest.py:98-125 | one stride prints the next line, and either writes the batch, keeping what the loop knows, or stops with the run's error and the earlier batches written |
| Download.FeaturesetLoopEnds | get_features_via_rest.py:98 | once the strides run out the run has completed and every progress line was printed |
| Service.ServeBatch | get_features_via_rest.py:41-50 | against a layer listed by ascending ID, a batch query returns exactly the features at the batch's positions |
| Service.GatheredFrom | get_features_via_rest.py:40-50 | the batches from stride `i` on download exactly the layer's features from position `i` on |
| Service.DownloadIsLossless | get_features_via_rest.py:41-43 | the batches planned over a layer's object IDs download all of its features, each once, in order, under the server model of "## Left out" (ascending IDs, an exact range filter, answers in layer order) |
| Strategies.StrategiesAgree | get_features_via_rest.py:64-67 | when every batch is served, both procedures complete and the JSON features equal what a new feature class ends up holding |
| Strategies.StrategiesStopTogether | get_features_via_rest.py:58 | when every earlier batch was answered with features, a request failing at batch `k` stops both procedures there with the same error; the feature class keeps the batches before `k` |
| Strategies.StrategiesStopTogetherOnMissingFeatures | get_features_via_rest.py:64-65 | when every earlier batch was answered with features, a response without `features` at a batch after the first stops both procedures with the same missing-features error; the feature class keeps the batches before it |
| Strategies.StrategiesDifferOnFeaturelessFirstBatch | get_features_via_rest.py:64-67 | a first response without features is copied into the JSON accumulator and the run goes on, while the feature-set load stops with the output untouched |
| Strategies.BothStrategiesRecoverLayer | get_features_via_rest.py:28-128 | downloading a non-empty ascending-ID layer gives its metadata and all its features with `by_json`, and a new feature class holding all its features with `by_featureset` |

## Left out

- `get_json` (lines 19-25): the HTTP request and the JSON decoding. They are the `fetch` parameter; a raised exception is `None`.
- The query string and URL (lines 53-54 and 111-112). A query is modelled as its pair of bounds; the text formatting is not modelled.
- The `print` of the progress line (lines 56 and 114). The printed values are modelled as `Report`s; the `{:.1f}` rounding is not. The float division on line 55 is an exact real division. So the "below 100" and "strictly rising" promises hold for the exact value only: the printed value reads 100.0 on the last line from 2000 batches on, and consecutive lines can print the same value from about 1000 batches on.
- `by_json` after the loop (lines 71-86): `json.dumps`, the temporary file, `arcpy.JSONToFeatures_conversion` and `os.remove` are file and ArcGIS I/O. `Download.ByJson` returns the accumulated JSON object instead.
- `arcpy.FeatureSet.load`, `arcpy.Exists`, `Append_management` and `CopyFeatures_management` (lines 116-125) are ArcGIS calls. They are modelled as:
  - a load through the same `fetch`, assumed to fail when the request fails or the response has no `features` key. The script does not state this; it is a property of the ArcGIS call. `Strategies.StrategiesDifferOnFeaturelessFirstBatch`, `Strategies.StrategiesStopTogetherOnMissingFeatures` and the "`by_featureset` stops" claims rest on it;
  - an optional list of features;
  - copy-or-append on that list.
  Field mapping, geometry and schema checks are not modelled.
- Exceptions raised by the ArcGIS calls, other than a failed load, are not modelled.
- `main` (lines 130-157): fetching the object IDs and `maxRecordCount` is I/O. The IDs and the batch size are parameters.
- `AGOL_item_updates.py` and `profiling.py` are not part of this model. They do not take part in the download.
- Service.DownloadIsLossless: `Service` is a model of the server, not of this script. It assumes three things: the layer lists its IDs in strictly ascending order; the server applies the inclusive range filter exactly; and a range query returns its features in layer order, although the query on line 53 has no `orderByFields`. The script assumes the same, but nothing in it checks it.
- Strategies.BothStrategiesRecoverLayer: rests on the same server model as `Service.DownloadIsLossless`. It covers non-empty layers only: for an empty layer `by_json` ends with `{}`, which holds no metadata, and no feature class is created.

=== FILE: download.dfy ===
/**
 The two download procedures of get_features_via_rest.py, `by_json` (lines
 28-69) and `by_featureset` (lines 89-128), as loops over the object-ID
 list. Each returns the progress lines it prints; the network is the `fetch`
 parameter and the output feature class is a value passed in and out.
 */
module Download {
  import opened Wrappers
  import opened Partition
  import opened Progress
  import opened Payload

  /**
   `by_json` up to the hand-over to the JSON-to-features conversion: the
   JSON object it has accumulated, or the error that ended the run. Both
   procedures walk the same plan and print the same progress lines.
   */
  method ByJson(ids: seq<int>, batchSize: int, fetch: Fetch)
    returns (out: Result<Response, Error>, reports: seq<Report>)
    ensures batchSize == 0 ==> out == Err(DivisionByZero) && reports == []
    ensures (batchSize < 0 || ids == []) && batchSize != 0 ==> out == Ok(EmptyDict) && reports == []
    ensures batchSize > 0 ==> out == JsonRun(Plan(ids, batchSize), fetch, EmptyDict)
    ensures batchSize > 0 ==>
              |reports| <= |Reports(ids, batchSize)| && reports == Reports(ids, batchSize)[..|reports|]
    ensures batchSize > 0 && out.Ok? ==> reports == Reports(ids, batchSize)
    ensures out.Err? && batchSize != 0 ==>
              && reports != []
              && (out.error.FetchFailed? || out.error.MissingFeatures?)
              && out.error.query == reports[|reports| - 1].query
    ensures batchSize > 0 && ids != [] && Served(Plan(ids, batchSize), fetch) ==>
              out == Ok(Response(fetch(Plan(ids, batchSize)[0]).value.metadata,
                                 Some(Gathered(Plan(ids, batchSize), fetch))))
  {
    if batchSize == 0 {
      return Err(DivisionByZero), [];
    }
    if batchSize < 0 {
      return Ok(EmptyDict), [];
    }
    out, reports := JsonBatches(ids, batchSize, fetch);
    if ids != [] && Served(Plan(ids, batchSize), fetch) {
      JsonRunServed(Plan(ids, batchSize), fetch, EmptyDict);
    }
  }

  /** The loop of `by_json` (lines 36-69) for a positive batch size. */
  method JsonBatches(ids: seq<int>, batchSize: int, fetch: Fetch)
    returns (out: Result<Response, Error>, reports: seq<Report>)
    requires batchSize > 0
    ensures out == JsonRun(Plan(ids, batchSize), fetch, EmptyDict)
    ensures |reports| <= |Reports(ids, batchSize)| && reports == Reports(ids, batchSize)[..|reports|]
    ensures out.Ok? ==> reports == Reports(ids, batchSize)
    ensures out.Err? ==>
              && reports != []
              && (out.error.FetchFailed? || out.error.MissingFeatures?)
              && out.error.query == reports[|reports| - 1].query
  {
    var featuresJson := EmptyDict;
    reports := [];
    var total := |ids|;
    var numBatches := NumBatches(total, batchSize);
    var batch := 1;
    var i := 0;
    ghost var plan := Plan(ids, batchSize);
    ghost var all := Reports(ids, batchSize);
    PlanLength(ids, batchSize);
    assert |all| == |plan|;
    assert PlanFrom(ids, batchSize, i) == plan[0..];
    while i < total
      invariant batch == |reports| + 1
      invariant |reports| <= |plan|
      invariant PlanFrom(ids, batchSize, i) == plan[|reports|..]
      invariant reports == all[..|reports|]
      invariant JsonRun(plan, fetch, EmptyDict) == JsonRun(PlanFrom(ids, batchSize, i), fetch, featuresJson)
      decreases total - i
    {
      var q := BatchQuery(ids, i, batchSize);
      NextBatch(ids, batchSize, i, |reports|);
      reports := reports + [Report(q, batch, numBatches, Percent(batch, numBatches))];
      var response := fetch(q);
      if response.None? {
        return Err(FetchFailed(q)), reports;
      }
      var merged := JsonMerge(featuresJson, response.value, q);
      if merged.Err? {
        return merged, reports;
      }
      featuresJson := merged.value;
      batch := batch + 1;
      i := i + batchSize;
    }
    out := Ok(featuresJson);
  }

  /**
   `by_featureset`: every batch is loaded and written to the output as soon
   as it arrives, so a failure leaves the batches already written in place.
   `target` is the output feature class before the run (`None` when it does
   not exist) and `output` the one after it.
   */
  method ByFeatureset(ids: seq<int>, batchSize: int, fetch: Fetch, target: Option<seq<Feature>>)
    returns (output: Option<seq<Feature>>, status: Status, reports: seq<Report>)
    ensures batchSize == 0 ==> output == target && status == Aborted(DivisionByZero) && reports == []
    ensures (batchSize < 0 || ids == []) && batchSize != 0 ==>
              output == target && status == Completed && reports == []
    ensures batchSize > 0 ==> (output, status) == FeaturesetRun(Plan(ids, batchSize), fetch, target)
    ensures batchSize > 0 ==>
              |reports| <= |Reports(ids, batchSize)| && reports == Reports(ids, batchSize)[..|reports|]
    ensures batchSize > 0 && status.Completed? ==> reports == Reports(ids, batchSize)
    ensures status.Aborted? && batchSize != 0 ==>
              && reports != []
              && (status.error.FetchFailed? || status.error.MissingFeatures?)
              && status.error.query == reports[|reports| - 1].query
    ensures status.Aborted? && batchSize > 0 ==>
              && 0 < |reports| <= |Plan(ids, batchSize)|
              && Served(Plan(ids, batchSize)[..|reports| - 1], fetch)
              && Contents(output) == Contents(target) + Gathered(Plan(ids, batchSize)[..|reports| - 1], fetch)
    ensures batchSize > 0 && Served(Plan(ids, batchSize), fetch) ==>
              && status == Completed
              && Contents(output) == Contents(target) + Gathered(Plan(ids, batchSize), fetch)
              && (output.Some? <==> target.Some? || ids != [])
  {
    if batchSize == 0 {
      return target, Aborted(DivisionByZero), [];
    }
    if batchSize < 0 {
      return target, Completed, [];
    }
    output, status, reports := FeaturesetBatches(ids, batchSize, fetch, target);
    FeaturesetRunServedIfServed(Plan(ids, batchSize), fetch, target);
  }

  /** The loop of `by_featureset` (lines 95-128) for a positive batch size. */
  method FeaturesetBatches(ids: seq<int>, batchSize: int, fetch: Fetch, target: Option<seq<Feature>>)
    returns (output: Option<seq<Feature>>, status: Status, reports: seq<Report>)
    requires batchSize > 0
    ensures (output, status) == FeaturesetRun(Plan(ids, batchSize), fetch, target)
    ensures |reports| <= |Reports(ids, batchSize)| && reports == Reports(ids, batchSize)[..|reports|]
    ensures status.Completed? ==> reports == Reports(ids, batchSize)
    ensures status.Aborted? ==>
              && reports != []
              && (status.error.FetchFailed? || status.error.MissingFeatures?)
              && status.error.query == reports[|reports| - 1].query
              && Served(Plan(ids, batchSize)[..|reports| - 1], fetch)
              && Contents(output) == Contents(target) + Gathered(Plan(ids, batchSize)[..|reports| - 1], fetch)
  {
    output := target;
    status := Completed;
    reports := [];
    var total := |ids|;
    var numBatches := NumBatches(total, batchSize);
    var batch := 1;
    var i := 0;
    FeaturesetLoopStarts(ids, batchSize, fetch, target);
    while i < total
      invariant batch == |reports| + 1
      invariant FeaturesetLoop(ids, batchSize, fetch, target, i, output, reports)
      decreases total - i
    {
      var q := BatchQuery(ids, i, batchSize);
      FeaturesetLoopStep(ids, batchSize, fetch, target, i, output, reports);
      reports := reports + [Report(q, batch, numBatches, Percent(batch, numBatches))];
      var loaded := LoadFeatureSet(fetch, q);
      if loaded.Err? {
        return output, Aborted(loaded.error), reports;
      }
      output := FeaturesetWrite(output, loaded.value);
      batch := batch + 1;
      i := i + batchSize;
    }
    FeaturesetLoopEnds(ids, batchSize, fetch, target, i, output, reports);
  }

  /**
   What `by_featureset` knows after the strides before `i`: its progress
   lines are the first ones, the rest of the run is the run over the
   remaining strides, and every batch so far was answered and written.
   */
  ghost predicate FeaturesetLoop(ids: seq<int>, batchSize: int, fetch: Fetch, target: Option<seq<Feature>>,
                                 i: nat, output: Option<seq<Feature>>, reports: seq<Report>)
    requires batchSize > 0
  {
    var plan := Plan(ids, batchSize);
    && |reports| <= |plan|
    && PlanFrom(ids, batchSize, i) == plan[|reports|..]
    && reports == Reports(ids, batchSize)[..|reports|]
    && FeaturesetRun(plan, fetch, target) == FeaturesetRun(PlanFrom(ids, batchSize, i), fetch, output)
    && Served(plan[..|reports|], fetch)
    && Contents(output) == Contents(target) + Gathered(plan[..|reports|], fetch)
  }

  /** Before the first stride nothing has been written or printed. */
  lemma FeaturesetLoopStarts(ids: seq<int>, batchSize: int, fetch: Fetch, target: Option<seq<Feature>>)
    requires batchSize > 0
    ensures FeaturesetLoop(ids, batchSize, fetch, target, 0, target, [])
  {
    var plan := Plan(ids, batchSize);
    assert plan[0..] == plan;
    assert plan[..0] == [];
  }

  /**
   One stride of `by_featureset`: it prints the next progress line, then
   either writes the batch and keeps the loop's knowledge, or stops with the
   load's error, the batches before it written.
   */
  lemma FeaturesetLoopStep(ids: seq<int>, batchSize: int, fetch: Fetch, target: Option<seq<Feature>>,
                           i: nat, output: Option<seq<Feature>>, reports: seq<Report>)
    requires batchSize > 0 && i < |ids|
    requires FeaturesetLoop(ids, batchSize, fetch, target, i, output, reports)
    ensures
      var q := BatchQuery(ids, i, batchSize);
      var n := NumBatches(|ids|, batchSize);
      var next := reports + [Report(q, |reports| + 1, n, Percent(|reports| + 1, n))];
      var loaded := LoadFeatureSet(fetch, q);
      && (loaded.Ok? ==> FeaturesetLoop(ids, batchSize, fetch, target, i + batchSize,
                                        FeaturesetWrite(output, loaded.value), next))
      && (loaded.Err? ==>
            && (output, Aborted(loaded.error)) == FeaturesetRun(Plan(ids, batchSize), fetch, target)
            && |next| <= |Plan(ids, batchSize)|
            && next == Reports(ids, batchSize)[..|next|]
            && Served(Plan(ids, batchSize)[..|next| - 1], fetch)
            && Contents(output) == Contents(target) + Gathered(Plan(ids, batchSize)[..|next| - 1], fetch))
  {
    var plan := Plan(ids, batchSize);
    var k := |reports|;
    NextBatch(ids, batchSize, i, k);
    if LoadFeatureSet(fetch, plan[k]).Ok? {
      WrittenBatch(plan, k, fetch, target, output);
    }
  }

  /** After the last stride every progress line was printed and the run is over. */
  lemma FeaturesetLoopEnds(ids: seq<int>, batchSize: int, fetch: Fetch, target: Option<seq<Feature>>,
                           i: nat, output: Option<seq<Feature>>, reports: seq<Report>)
    requires batchSize > 0 && i >= |ids|
    requires FeaturesetLoop(ids, batchSize, fetch, target, i, output, reports)
    ensures (output, Completed) == FeaturesetRun(Plan(ids, batchSize), fetch, target)
    ensures reports == Reports(ids, batchSize)
  {
    PlanLength(ids, batchSize);
    assert |reports| == |Plan(ids, batchSize)|;
  }

  /**
   One turn of either loop: when the stride starting at `i` is what is left
   of the plan after `k` queries, its query is the `k`-th one, its progress
   line is the `k`-th one, and the next stride holds the rest.
   */
  lemma NextBatch(ids: seq<int>, batchSize: int, i: nat, k: nat)
    requires batchSize > 0 && i < |ids| && k <= |Plan(ids, batchSize)|
    requires PlanFrom(ids, batchSize, i) == Plan(ids, batchSize)[k..]
    ensures k < |Plan(ids, batchSize)| && k < |Reports(ids, batchSize)|
    ensures Plan(ids, batchSize)[k] == BatchQuery(ids, i, batchSize)
    ensures PlanFrom(ids, batchSize, i + batchSize) == Plan(ids, batchSize)[k + 1..]
    ensures Reports(ids, batchSize)[..k + 1]
            == Reports(ids, batchSize)[..k]
               + [Report(BatchQuery(ids, i, batchSize), k + 1, NumBatches(|ids|, batchSize),
                         Percent(k + 1, NumBatches(|ids|, batchSize)))]
  {
    var plan := Plan(ids, batchSize);
    var all := Reports(ids, batchSize);
    PlanLength(ids, batchSize);
    assert plan[k..][0] == plan[k];
    assert plan[k..][1..] == plan[k + 1..];
    assert all[..k + 1] == all[..k] + [all[k]];
  }

  /** Writing the `k`-th batch extends the served prefix, and what has been written, by that batch. */
  lemma WrittenBatch(plan: seq<Query>, k: nat, fetch: Fetch, target: Option<seq<Feature>>, output: Option<seq<Feature>>)
    requires k < |plan| && LoadFeatureSet(fetch, plan[k]).Ok?
    requires Served(plan[..k], fetch)
    requires Contents(output) == Contents(target) + Gathered(plan[..k], fetch)
    ensures Served(plan[..k + 1], fetch)
    ensures Contents(FeaturesetWrite(output, LoadFeatureSet(fetch, plan[k]).value))
            == Contents(target) + Gathered(plan[..k + 1], fetch)
  {
    var fs := LoadFeatureSet(fetch, plan[k]).value;
    assert plan[..k + 1] == plan[..k] + [plan[k]];
    GatheredSnoc(plan[..k], plan[k], fetch);
    assert (Contents(target) + Gathered(plan[..k], fetch)) + fs
           == Contents(target) + (Gathered(plan[..k], fetch) + fs);
  }

  /** `FeaturesetRunServed` under the condition it needs, for use where that condition is not known. */
  lemma FeaturesetRunServedIfServed(qs: seq<Query>, fetch: Fetch, store: Option<seq<Feature>>)
    ensures Served(qs, fetch) ==>
              && FeaturesetRun(qs, fetch, store).1 == Completed
              && Contents(FeaturesetRun(qs, fetch, store).0) == Contents(store) + Gathered(qs, fetch)
              && (FeaturesetRun(qs, fetch, store).0.Some? <==> store.Some? || qs != [])
  {
    if Served(qs, fetch) {
      FeaturesetRunServed(qs, fetch, store);
    }
  }
}

=== FILE: partition.dfy ===
/**
 The batch partitioning shared by `by_json` and `by_featureset` in
 get_features_via_rest.py: the object-ID list is walked in strides of
 `batch_size`, and each stride becomes one inclusive OBJECTID range query.
 */
module Partition {

  /** One REST query: `OBJECTID >= beginOid and OBJECTID <= endOid`. */
  datatype Query = Query(beginOid: int, endOid: int)

  /** True iff the query's inclusive range selects `oid`. */
  predicate Contains(q: Query, oid: int) {
    q.beginOid <= oid <= q.endOid
  }

  /** Object IDs as the service lists them: unique and sorted ascending. */
  predicate StrictlyAscending(ids: seq<int>) {
    forall i, j :: 0 <= i < j < |ids| ==> ids[i] < ids[j]
  }

  lemma MulLeMono(a: int, c: int, b: int)
    requires a <= c && b >= 0
    ensures a * b <= c * b
  {
    assert c * b - a * b == (c - a) * b;
  }

  /** Facts about `-((-total) / batchSize)`, the ceiling division written with a floor division. */
  lemma NegatedFloorDiv(total: nat, batchSize: int)
    requires batchSize > 0
    ensures (-(total as int)) / batchSize <= 0
    ensures total <= -((-(total as int)) / batchSize) * batchSize
    ensures -((-(total as int)) / batchSize) == 0 || (-((-(total as int)) / batchSize) - 1) * batchSize < total
  {
    var t: int := total;
    var q := (-t) / batchSize;
    var m := (-t) % batchSize;
    assert -t == q * batchSize + m && 0 <= m < batchSize;
    if q > 0 {
      MulLeMono(1, q, batchSize);
    }
    assert -q * batchSize == total + m;
    assert (-q - 1) * batchSize == total + m - batchSize;
  }

  /**
   The batch count `-(-total_count // batch_size)` (lines 38 and 96). For a
   positive divisor Dafny's `/` rounds toward negative infinity, as Python's
   `//` does, so the expression is written as in the source.
   */
  function NumBatches(total: nat, batchSize: int): (r: nat)
    requires batchSize > 0
    ensures r == 0 <==> total == 0
  {
    var t: int := total;
    NegatedFloorDiv(total, batchSize);
    assert -((-t) / batchSize) > 0 ==> total > 0 by {
      if -((-t) / batchSize) > 0 {
        MulLeMono(1, -((-t) / batchSize), batchSize);
      }
    }
    -((-t) / batchSize)
  }

  /** The batch count is the ceiling of `total / batchSize`: the least count of batches that holds `total` IDs. */
  lemma NumBatchesIsCeiling(total: nat, batchSize: int)
    requires batchSize > 0
    ensures total <= NumBatches(total, batchSize) * batchSize
    ensures NumBatches(total, batchSize) == 0 || (NumBatches(total, batchSize) - 1) * batchSize < total
  {
    NegatedFloorDiv(total, batchSize);
  }

  /** The ceiling is unique: any count that brackets `total` this way is `NumBatches`. */
  lemma NumBatchesUnique(total: nat, batchSize: int, r: nat)
    requires batchSize > 0
    requires total <= r * batchSize
    requires r == 0 || (r - 1) * batchSize < total
    ensures r == NumBatches(total, batchSize)
  {
    var n := NumBatches(total, batchSize);
    NumBatchesIsCeiling(total, batchSize);
    if r < n {
      MulLeMono(r, n - 1, batchSize);
    } else if n < r {
      MulLeMono(n, r - 1, batchSize);
    }
  }

  /** A list longer than one batch needs one batch more than what is left after the first. */
  lemma {:induction false} NumBatchesStep(total: nat, batchSize: int)
    requires batchSize > 0 && total > 0
    ensures NumBatches(total, batchSize)
            == 1 + (if total > batchSize then NumBatches(total - batchSize, batchSize) else 0)
  {
    if total > batchSize {
      var n := NumBatches(total - batchSize, batchSize);
      assert (n + 1) * batchSize == n * batchSize + batchSize;
      assert n * batchSize == (n - 1) * batchSize + batchSize;
      NumBatchesUnique(total, batchSize, n + 1);
    } else {
      NumBatchesUnique(total, batchSize, 1);
    }
  }

  /**
   The end index of the batch that starts at index `i` (lines 44-50): `i +
   batchSize - 1`, clamped to the last index when it would run past the list.
   */
  function BatchEnd(i: nat, total: nat, batchSize: int): (j: nat)
    requires i < total && batchSize > 0
    ensures i <= j < total
    ensures j - i < batchSize
    ensures j - i == batchSize - 1 || j == total - 1
  {
    var iPlus := i + batchSize - 1;
    if iPlus < total then iPlus else total - 1
  }

  /** The query for the batch starting at index `i` (lines 44-53): from its first ID to its last. */
  function BatchQuery(ids: seq<int>, i: nat, batchSize: int): Query
    requires i < |ids| && batchSize > 0
  {
    var j := BatchEnd(i, |ids|, batchSize);
    Query(ids[i], ids[j])
  }

  /**
   For a sorted ID list the query of the batch starting at `i` selects
   exactly the IDs at positions `i .. i + batchSize - 1` that exist, and no
   other ID of the list.
   */
  lemma BatchQuerySelects(ids: seq<int>, i: nat, batchSize: int)
    requires i < |ids| && batchSize > 0 && StrictlyAscending(ids)
    ensures forall j :: 0 <= j < |ids| ==>
              (Contains(BatchQuery(ids, i, batchSize), ids[j]) <==> i <= j < i + batchSize)
  {
    var e := BatchEnd(i, |ids|, batchSize);
    forall j | 0 <= j < |ids|
      ensures Contains(BatchQuery(ids, i, batchSize), ids[j]) <==> i <= j < i + batchSize
    {
      if j < i {
        assert ids[j] < ids[i];
      } else if j > e {
        assert ids[e] < ids[j];
      } else {
        assert i < j ==> ids[i] < ids[j];
        assert j < e ==> ids[j] < ids[e];
      }
    }
  }

  /**
   The queries issued by `for i in range(start, total_count, batch_size)`,
   from stride start `i` on: one per stride start below the list length.
   */
  function PlanFrom(ids: seq<int>, batchSize: int, i: nat): (qs: seq<Query>)
    requires batchSize > 0
    ensures i >= |ids| <==> qs == []
    decreases |ids| - i
  {
    if i < |ids| then [BatchQuery(ids, i, batchSize)] + PlanFrom(ids, batchSize, i + batchSize) else []
  }

  /** The loop of lines 40-50 over the whole list. */
  function Plan(ids: seq<int>, batchSize: int): (qs: seq<Query>)
    requires batchSize > 0
    ensures ids == [] <==> qs == []
  {
    PlanFrom(ids, batchSize, 0)
  }

  /** From stride start `i` the loop runs once per remaining batch, `ceil((|ids| - i) / batchSize)` times. */
  lemma {:induction false} PlanFromLength(ids: seq<int>, batchSize: int, i: nat)
    requires batchSize > 0 && i < |ids|
    ensures |PlanFrom(ids, batchSize, i)| == NumBatches(|ids| - i, batchSize)
    decreases |ids| - i
  {
    NumBatchesStep(|ids| - i, batchSize);
    if i + batchSize < |ids| {
      PlanFromLength(ids, batchSize, i + batchSize);
    }
  }

  /** The number of loop iterations is the batch count `num_batches` (lines 38-40). */
  lemma PlanLength(ids: seq<int>, batchSize: int)
    requires batchSize > 0
    ensures |Plan(ids, batchSize)| == NumBatches(|ids|, batchSize)
  {
    if ids != [] {
      PlanFromLength(ids, batchSize, 0);
    }
  }

  /** The `k`-th query of a plan reads the batch that starts at index `i + k * batchSize`. */
  lemma {:induction false} PlanFromAt(ids: seq<int>, batchSize: int, i: nat, k: nat)
    requires batchSize > 0 && k < |PlanFrom(ids, batchSize, i)|
    ensures i + k * batchSize < |ids|
    ensures PlanFrom(ids, batchSize, i)[k] == BatchQuery(ids, i + k * batchSize, batchSize)
    decreases k
  {
    if k > 0 {
      PlanFromAt(ids, batchSize, i + batchSize, k - 1);
      assert i + batchSize + (k - 1) * batchSize == i + k * batchSize;
    }
  }

  /**
   Reference partition: the list cut into consecutive chunks of
   `batchSize` elements, the last one possibly shorter.
   */
  function Chunks(ids: seq<int>, batchSize: int): seq<seq<int>>
    requires batchSize > 0
    decreases |ids|
  {
    if |ids| == 0 then []
    else if |ids| <= batchSize then [ids]
    else [ids[..batchSize]] + Chunks(ids[batchSize..], batchSize)
  }

  function Flatten(cs: seq<seq<int>>): seq<int> {
    if cs == [] then [] else cs[0] + Flatten(cs[1..])
  }

  /** The range a chunk spans: its first and last identifier. */
  function Bounds(c: seq<int>): Query
    requires |c| > 0
  {
    Query(c[0], c[|c| - 1])
  }

  /** The bounds of the chunks, in order (an empty chunk, which `Chunks` never produces, has none). */
  function BoundsOf(cs: seq<seq<int>>): seq<Query> {
    if cs == [] then []
    else (if cs[0] == [] then [] else [Bounds(cs[0])]) + BoundsOf(cs[1..])
  }

  /**
   The chunks cover the list exactly, in order: concatenated they give the
   list back, each holds between one and `batchSize` IDs, every chunk but
   the last holds exactly `batchSize`, and there are `NumBatches` of them.
   */
  lemma {:induction false} ChunksPartition(ids: seq<int>, batchSize: int)
    requires batchSize > 0
    ensures Flatten(Chunks(ids, batchSize)) == ids
    ensures |Chunks(ids, batchSize)| == NumBatches(|ids|, batchSize)
    ensures forall k :: 0 <= k < |Chunks(ids, batchSize)| ==> 0 < |Chunks(ids, batchSize)[k]| <= batchSize
    ensures forall k :: 0 <= k < |Chunks(ids, batchSize)| - 1 ==> |Chunks(ids, batchSize)[k]| == batchSize
    decreases |ids|
  {
    if |ids| > 0 {
      NumBatchesStep(|ids|, batchSize);
      if |ids| > batchSize {
        var rest := ids[batchSize..];
        ChunksPartition(rest, batchSize);
        var cs := Chunks(ids, batchSize);
        assert cs[1..] == Chunks(rest, batchSize);
        assert ids[..batchSize] + rest == ids;
        forall k | 0 <= k < |cs|
          ensures 0 < |cs[k]| <= batchSize
          ensures k < |cs| - 1 ==> |cs[k]| == batchSize
        {
          if k > 0 {
            assert cs[k] == Chunks(rest, batchSize)[k - 1];
          }
        }
      } else {
        assert Flatten(Chunks(ids, batchSize)) == ids + [];
      }
    }
  }

  /**
   The stride arithmetic of the source computes the bounds of the reference
   chunks: the `k`-th query is the first and last ID of the `k`-th chunk.
   */
  lemma {:induction false} PlanFromMatchesChunks(ids: seq<int>, batchSize: int, i: nat)
    requires batchSize > 0 && i <= |ids|
    ensures PlanFrom(ids, batchSize, i) == BoundsOf(Chunks(ids[i..], batchSize))
    decreases |ids| - i
  {
    if i == |ids| {
      assert ids[i..] == [];
    } else if |ids| - i <= batchSize {
      LastChunkBounds(ids, batchSize, i);
    } else {
      PlanFromMatchesChunks(ids, batchSize, i + batchSize);
      FullChunkBounds(ids, batchSize, i);
    }
  }

  lemma LastChunkBounds(ids: seq<int>, batchSize: int, i: nat)
    requires batchSize > 0 && i < |ids| <= i + batchSize
    ensures PlanFrom(ids, batchSize, i) == BoundsOf(Chunks(ids[i..], batchSize))
  {
    var rest := ids[i..];
    assert Chunks(rest, batchSize) == [rest];
    assert BoundsOf([rest]) == [Bounds(rest)] + BoundsOf([]);
    assert PlanFrom(ids, batchSize, i) == [BatchQuery(ids, i, batchSize)] + [];
  }

  lemma FullChunkBounds(ids: seq<int>, batchSize: int, i: nat)
    requires batchSize > 0 && i + batchSize < |ids|
    requires PlanFrom(ids, batchSize, i + batchSize) == BoundsOf(Chunks(ids[i + batchSize..], batchSize))
    ensures PlanFrom(ids, batchSize, i) == BoundsOf(Chunks(ids[i..], batchSize))
  {
    var head := Bounds(ids[i..i + batchSize]);
    PlanFromCons(ids, batchSize, i);
    ChunksCons(ids, batchSize, i);
    assert PlanFrom(ids, batchSize, i) == [head] + PlanFrom(ids, batchSize, i + batchSize);
    assert BoundsOf(Chunks(ids[i..], batchSize)) == [head] + BoundsOf(Chunks(ids[i + batchSize..], batchSize));
  }

  lemma PlanFromCons(ids: seq<int>, batchSize: int, i: nat)
    requires batchSize > 0 && i + batchSize < |ids|
    ensures PlanFrom(ids, batchSize, i)
            == [Bounds(ids[i..i + batchSize])] + PlanFrom(ids, batchSize, i + batchSize)
  {
    assert BatchQuery(ids, i, batchSize) == Bounds(ids[i..i + batchSize]);
  }

  lemma ChunksCons(ids: seq<int>, batchSize: int, i: nat)
    requires batchSize > 0 && i + batchSize < |ids|
    ensures BoundsOf(Chunks(ids[i..], batchSize))
            == [Bounds(ids[i..i + batchSize])] + BoundsOf(Chunks(ids[i + batchSize..], batchSize))
  {
    var rest := ids[i..];
    assert rest[..batchSize] == ids[i..i + batchSize];
    assert rest[batchSize..] == ids[i + batchSize..];
    var cs := Chunks(rest, batchSize);
    assert cs == [ids[i..i + batchSize]] + Chunks(ids[i + batchSize..], batchSize);
    assert cs[1..] == Chunks(ids[i + batchSize..], batchSize);
  }

  lemma PlanMatchesChunks(ids: seq<int>, batchSize: int)
    requires batchSize > 0
    ensures Plan(ids, batchSize) == BoundsOf(Chunks(ids, batchSize))
  {
    PlanFromMatchesChunks(ids, batchSize, 0);
    assert ids[0..] == ids;
  }

  lemma DivBand(j: nat, k: nat, batchSize: int)
    requires batchSize > 0
    ensures k * batchSize <= j < k * batchSize + batchSize <==> j / batchSize == k
  {
    var q := j / batchSize;
    assert j == q * batchSize + j % batchSize;
    assert (q + 1) * batchSize == q * batchSize + batchSize;
    assert (k + 1) * batchSize == k * batchSize + batchSize;
    if k * batchSize <= j < k * batchSize + batchSize {
      if q < k {
        MulLeMono(q + 1, k, batchSize);
      } else if k < q {
        MulLeMono(k + 1, q, batchSize);
      }
    }
  }

  /**
   Every identifier lies in exactly one query's range ("make sure we don't
   get any duplicates"): the ID at position `j` is selected by query
   `j / batchSize` and by no other.
   */
  lemma {:induction false} PlanCoversEachIdOnce(ids: seq<int>, batchSize: int)
    requires batchSize > 0 && StrictlyAscending(ids)
    ensures forall j :: 0 <= j < |ids| ==> j / batchSize < |Plan(ids, batchSize)|
    ensures forall j, k :: 0 <= j < |ids| && 0 <= k < |Plan(ids, batchSize)| ==>
              (Contains(Plan(ids, batchSize)[k], ids[j]) <==> k == j / batchSize)
  {
    var plan := Plan(ids, batchSize);
    forall j | 0 <= j < |ids|
      ensures j / batchSize < |plan|
    {
      var q := j / batchSize;
      assert j == q * batchSize + j % batchSize;
      NumBatchesIsCeiling(|ids|, batchSize);
      PlanLength(ids, batchSize);
      if q >= |plan| {
        MulLeMono(|plan|, q, batchSize);
      }
    }
    forall j, k | 0 <= j < |ids| && 0 <= k < |plan|
      ensures Contains(plan[k], ids[j]) <==> k == j / batchSize
    {
      PlanFromAt(ids, batchSize, 0, k);
      BatchQuerySelects(ids, k * batchSize, batchSize);
      DivBand(j, k, batchSize);
    }
  }

  /**
   For a sorted ID list the queries are well-formed ranges that are ordered
   and pairwise disjoint: every range ends below the start of each later one.
   */
  lemma {:induction false} PlanOrderedDisjoint(ids: seq<int>, batchSize: int)
    requires batchSize > 0 && StrictlyAscending(ids)
    ensures forall k :: 0 <= k < |Plan(ids, batchSize)| ==>
              Plan(ids, batchSize)[k].beginOid <= Plan(ids, batchSize)[k].endOid
    ensures forall k, k' :: 0 <= k < k' < |Plan(ids, batchSize)| ==>
              Plan(ids, batchSize)[k].endOid < Plan(ids, batchSize)[k'].beginOid
  {
    var plan := Plan(ids, batchSize);
    forall k | 0 <= k < |plan|
      ensures plan[k].beginOid <= plan[k].endOid
    {
      PlanFromAt(ids, batchSize, 0, k);
    }
    forall k, k' | 0 <= k < k' < |plan|
      ensures plan[k].endOid < plan[k'].beginOid
    {
      PlanFromAt(ids, batchSize, 0, k);
      PlanFromAt(ids, batchSize, 0, k');
      MulLeMono(k + 1, k', batchSize);
      assert (k + 1) * batchSize == k * batchSize + batchSize;
    }
  }

  /** Lines 44-50 on 1..23 with batches of 10: the last batch is clamped to end at 23, not 30. */
  lemma ClampedLastBatchExample()
    ensures Plan(seq(23, k => k + 1), 10)
            == [Query(1, 10), Query(11, 20), Query(21, 23)]
  {
    var ids := seq(23, k => k + 1);
    assert PlanFrom(ids, 10, 30) == [];
    assert PlanFrom(ids, 10, 20) == [Query(21, 23)];
    assert PlanFrom(ids, 10, 10) == [Query(11, 20), Query(21, 23)];
  }

  /** A single ID gives one batch whose range starts and ends at that ID. */
  lemma SingleIdExample()
    ensures Plan([5], 10) == [Query(5, 5)]
  {
    assert PlanFrom([5], 10, 10) == [];
  }

  /**
   The no-duplicates, no-omissions promise needs ascending IDs: for the
   unsorted list 3, 1, 2 the first range runs from 3 down to 1 and is empty,
   and no query contains ID 1.
   */
  lemma UnsortedIdsMissAnId()
    ensures Plan([3, 1, 2], 2) == [Query(3, 1), Query(2, 2)]
    ensures forall k :: 0 <= k < |Plan([3, 1, 2], 2)| ==> !Contains(Plan([3, 1, 2], 2)[k], 1)
  {
    assert PlanFrom([3, 1, 2], 2, 4) == [];
    assert PlanFrom([3, 1, 2], 2, 2) == [Query(2, 2)];
  }
}

=== FILE: payload.dfy ===
/**
 Downloaded batches and the two ways get_features_via_rest.py merges them:
 the in-memory JSON accumulator of `by_json` (lines 58-67) and the
 create-or-append feature-class store of `by_featureset` (lines 116-125).
 */
module Payload {
  import opened Wrappers
  import opened Partition

  /** One feature record: its OBJECTID and the rest of the record (attributes and geometry), kept opaque. */
  datatype Feature = Feature(oid: int, record: string)

  /**
   A parsed query response, i.e. a JSON object: `features` is its feature
   list, or `None` when the object has no `features` key; `metadata` holds
   every other top-level key (geometry type, spatial reference, fields, ...).
   */
  datatype Response = Response(metadata: map<string, string>, features: Option<seq<Feature>>)

  /** The `features_json = {}` the JSON strategy starts from: no keys at all. */
  const EmptyDict: Response := Response(map[], None)

  /** Why a run stops. */
  datatype Error =
    | DivisionByZero            // batch_size == 0: the ceiling division raises
    | FetchFailed(query: Query) // the request or the JSON parse for this query raised
    | MissingFeatures(query: Query) // this query's response has no `features` key where one is read

  /** How a run that writes as it goes ended. */
  datatype Status = Completed | Aborted(error: Error)

  /** The service, as seen by the loops: a query's response, or `None` when fetching or parsing it fails. */
  type Fetch = Query -> Option<Response>

  /** Every query of `qs` is answered with a response that carries a feature list. */
  predicate Served(qs: seq<Query>, fetch: Fetch) {
    forall k :: 0 <= k < |qs| ==> fetch(qs[k]).Some? && fetch(qs[k]).value.features.Some?
  }

  /** The features of all answers to `qs`, batch after batch. */
  function Gathered(qs: seq<Query>, fetch: Fetch): seq<Feature>
    requires Served(qs, fetch)
  {
    if qs == [] then [] else fetch(qs[0]).value.features.value + Gathered(qs[1..], fetch)
  }

  /** Gathering one more query adds that batch's features at the end. */
  lemma {:induction false} GatheredSnoc(qs: seq<Query>, q: Query, fetch: Fetch)
    requires Served(qs, fetch) && fetch(q).Some? && fetch(q).value.features.Some?
    ensures Served(qs + [q], fetch)
    ensures Gathered(qs + [q], fetch) == Gathered(qs, fetch) + fetch(q).value.features.value
    decreases |qs|
  {
    assert forall k :: 0 <= k < |qs| ==> (qs + [q])[k] == qs[k];
    assert (qs + [q])[|qs|] == q;
    if qs == [] {
      assert [q][1..] == [];
    } else {
      assert (qs + [q])[1..] == qs[1..] + [q];
      ServedTail(qs, fetch);
      GatheredSnoc(qs[1..], q, fetch);
    }
  }

  lemma ServedTail(qs: seq<Query>, fetch: Fetch)
    requires qs != [] && Served(qs, fetch)
    ensures Served(qs[1..], fetch)
  {
    assert forall k :: 0 <= k < |qs| - 1 ==> qs[1..][k] == qs[k + 1];
  }

  /** Dropping the first of the `k` served queries before position `k` leaves the `k - 1` after it served. */
  lemma ServedPrefixTail(qs: seq<Query>, fetch: Fetch, k: nat)
    requires 0 < k <= |qs| && Served(qs[..k], fetch)
    ensures qs[..k][0] == qs[0]
    ensures Served(qs[1..][..k - 1], fetch)
  {
    assert qs[1..][..k - 1] == qs[..k][1..];
    ServedTail(qs[..k], fetch);
  }

  /**
   One merge of the JSON strategy (lines 64-67). While the accumulator has no
   `features` key the batch is copied in whole, metadata included; once it
   has one, only the feature list grows, every other field stays as it was,
   and a batch without `features` raises.
   */
  function JsonMerge(acc: Response, batch: Response, q: Query): (r: Result<Response, Error>)
    ensures acc.features.None? ==> r == Ok(batch)
    ensures acc.features.Some? && batch.features.Some? ==>
              && r.Ok?
              && r.value.metadata == acc.metadata
              && r.value.features == Some(acc.features.value + batch.features.value)
    ensures acc.features.Some? && batch.features.None? ==> r == Err(MissingFeatures(q))
  {
    if acc.features.Some? then
      if batch.features.Some? then
        Ok(acc.(features := Some(acc.features.value + batch.features.value)))
      else
        Err(MissingFeatures(q))
    else
      Ok(batch)
  }

  /** The JSON strategy's loop body over the remaining queries: fetch, merge, go on; the first failure ends the run. */
  function JsonRun(qs: seq<Query>, fetch: Fetch, acc: Response): Result<Response, Error>
  {
    if qs == [] then Ok(acc)
    else
      match fetch(qs[0])
      case None => Err(FetchFailed(qs[0]))
      case Some(batch) =>
        match JsonMerge(acc, batch, qs[0])
        case Err(e) => Err(e)
        case Ok(acc') => JsonRun(qs[1..], fetch, acc')
  }

  /**
   When every query is answered, the accumulator ends up holding the
   metadata of the first batch and the features of all batches in batch
   order (appended to any it already held); with no queries it is unchanged.
   */
  lemma {:induction false} JsonRunServed(qs: seq<Query>, fetch: Fetch, acc: Response)
    requires Served(qs, fetch)
    ensures qs == [] ==> JsonRun(qs, fetch, acc) == Ok(acc)
    ensures acc.features.Some? ==>
              JsonRun(qs, fetch, acc) == Ok(acc.(features := Some(acc.features.value + Gathered(qs, fetch))))
    ensures acc.features.None? && qs != [] ==>
              JsonRun(qs, fetch, acc)
              == Ok(Response(fetch(qs[0]).value.metadata, Some(Gathered(qs, fetch))))
    decreases |qs|
  {
    if qs != [] {
      var batch := fetch(qs[0]).value;
      var acc' := JsonMerge(acc, batch, qs[0]).value;
      ServedTail(qs, fetch);
      assert JsonMerge(acc, batch, qs[0]).Ok?;
      assert JsonRun(qs, fetch, acc) == JsonRun(qs[1..], fetch, acc');
      JsonRunServed(qs[1..], fetch, acc');
      var rest := Gathered(qs[1..], fetch);
      assert Gathered(qs, fetch) == batch.features.value + rest;
      if acc.features.Some? {
        assert acc' == acc.(features := Some(acc.features.value + batch.features.value));
        assert acc.features.value + Gathered(qs, fetch)
               == (acc.features.value + batch.features.value) + rest;
      }
    } else if acc.features.Some? {
      assert acc.features.value + [] == acc.features.value;
    }
  }

  /**
   A run that meets a failed fetch at query `k`, every earlier query having
   been answered with features, fails naming that query.
   */
  lemma {:induction false} JsonRunFetchFails(qs: seq<Query>, fetch: Fetch, acc: Response, k: nat)
    requires k < |qs| && Served(qs[..k], fetch) && fetch(qs[k]).None?
    ensures JsonRun(qs, fetch, acc) == Err(FetchFailed(qs[k]))
    decreases k
  {
    if k > 0 {
      var batch := fetch(qs[0]).value;
      ServedPrefixTail(qs, fetch, k);
      JsonRunFetchFails(qs[1..], fetch, JsonMerge(acc, batch, qs[0]).value, k - 1);
    }
  }

  /**
   A response without `features` at query `k`, after a feature list has been
   seen (in the accumulator, or in an earlier answered batch), raises naming
   that query: line 65 reads the missing key.
   */
  lemma {:induction false} JsonRunMissingFeatures(qs: seq<Query>, fetch: Fetch, acc: Response, k: nat)
    requires k < |qs| && Served(qs[..k], fetch)
    requires fetch(qs[k]).Some? && fetch(qs[k]).value.features.None?
    requires acc.features.Some? || k > 0
    ensures JsonRun(qs, fetch, acc) == Err(MissingFeatures(qs[k]))
    decreases k
  {
    if k > 0 {
      var batch := fetch(qs[0]).value;
      ServedPrefixTail(qs, fetch, k);
      assert batch.features.Some?;
      JsonRunMissingFeatures(qs[1..], fetch, JsonMerge(acc, batch, qs[0]).value, k - 1);
    }
  }

  /**
   A first response without `features` is replaced by the next one: the run
   ends successfully with the second batch's metadata and the features of the
   batches after the first, so the first batch contributes nothing and no
   error is raised.
   */
  lemma JsonDropsFeaturelessFirstBatch(qs: seq<Query>, fetch: Fetch)
    requires |qs| >= 2 && fetch(qs[0]).Some? && fetch(qs[0]).value.features.None?
    requires Served(qs[1..], fetch)
    ensures JsonRun(qs, fetch, EmptyDict)
            == Ok(Response(fetch(qs[1]).value.metadata, Some(Gathered(qs[1..], fetch))))
  {
    assert JsonRun(qs, fetch, EmptyDict) == JsonRun(qs[1..], fetch, fetch(qs[0]).value);
    JsonRunServed(qs[1..], fetch, fetch(qs[0]).value);
  }

  /**
   A lone response without `features` is kept: with no batch after it, it
   is the JSON object the run hands on, features key and all absent.
   */
  lemma JsonKeepsLoneFeaturelessBatch(q: Query, fetch: Fetch)
    requires fetch(q).Some? && fetch(q).value.features.None?
    ensures JsonRun([q], fetch, EmptyDict) == Ok(fetch(q).value)
  {
    assert [q][1..] == [];
  }

  /** What the feature-class store holds; a store that does not exist holds nothing. */
  function Contents(store: Option<seq<Feature>>): seq<Feature> {
    match store
    case None => []
    case Some(fs) => fs
  }

  /**
   One write of the feature-set strategy (lines 122-125): append to the
   output if it exists, create it from the batch otherwise. Either way the
   output exists afterwards and holds its old contents followed by the batch.
   */
  function FeaturesetWrite(store: Option<seq<Feature>>, fs: seq<Feature>): (r: Option<seq<Feature>>)
    ensures r.Some?
    ensures Contents(r) == Contents(store) + fs
  {
    if store.Some? then Some(store.value + fs) else Some(fs)
  }

  /**
   `fs.load(features_url)` (lines 117-118), served by the same query
   endpoint: it yields the response's feature list, or fails when the
   request fails or the response has no feature list.
   */
  function LoadFeatureSet(fetch: Fetch, q: Query): (r: Result<seq<Feature>, Error>)
    ensures r.Ok? <==> fetch(q).Some? && fetch(q).value.features.Some?
    ensures r.Ok? ==> r.value == fetch(q).value.features.value
    ensures fetch(q).None? ==> r == Err(FetchFailed(q))
  {
    match fetch(q)
    case None => Err(FetchFailed(q))
    case Some(resp) =>
      match resp.features
      case None => Err(MissingFeatures(q))
      case Some(fs) => Ok(fs)
  }

  /** The feature-set strategy's loop body over the remaining queries; writes made before a failure stay. */
  function FeaturesetRun(qs: seq<Query>, fetch: Fetch, store: Option<seq<Feature>>): (Option<seq<Feature>>, Status)
  {
    if qs == [] then (store, Completed)
    else
      match LoadFeatureSet(fetch, qs[0])
      case Err(e) => (store, Aborted(e))
      case Ok(fs) => FeaturesetRun(qs[1..], fetch, FeaturesetWrite(store, fs))
  }

  /**
   When every query is answered the run completes and the store holds its
   old contents followed by every batch's features in batch order; it
   exists afterwards exactly when it existed before or some batch was written.
   */
  lemma {:induction false} FeaturesetRunServed(qs: seq<Query>, fetch: Fetch, store: Option<seq<Feature>>)
    requires Served(qs, fetch)
    ensures FeaturesetRun(qs, fetch, store).1 == Completed
    ensures Contents(FeaturesetRun(qs, fetch, store).0) == Contents(store) + Gathered(qs, fetch)
    ensures FeaturesetRun(qs, fetch, store).0.Some? <==> store.Some? || qs != []
    ensures qs == [] ==> FeaturesetRun(qs, fetch, store).0 == store
    decreases |qs|
  {
    if qs != [] {
      var fs := fetch(qs[0]).value.features.value;
      ServedTail(qs, fetch);
      FeaturesetRunServed(qs[1..], fetch, FeaturesetWrite(store, fs));
      assert Contents(store) + Gathered(qs, fetch) == Contents(store) + fs + Gathered(qs[1..], fetch);
    }
  }

  /**
   A run whose query `k` cannot be loaded, every earlier query having been
   answered with features, stops there with that error; the store keeps the
   batches before `k` and nothing after them.
   */
  lemma {:induction false} FeaturesetRunAborts(qs: seq<Query>, fetch: Fetch, store: Option<seq<Feature>>, k: nat)
    requires k < |qs| && Served(qs[..k], fetch) && LoadFeatureSet(fetch, qs[k]).Err?
    ensures FeaturesetRun(qs, fetch, store).1 == Aborted(LoadFeatureSet(fetch, qs[k]).error)
    ensures Contents(FeaturesetRun(qs, fetch, store).0) == Contents(store) + Gathered(qs[..k], fetch)
    ensures k == 0 ==> FeaturesetRun(qs, fetch, store).0 == store
    ensures FeaturesetRun(qs, fetch, store).0.Some? <==> store.Some? || k > 0
    decreases k
  {
    if k > 0 {
      var fs := fetch(qs[0]).value.features.value;
      ServedPrefixTail(qs, fetch, k);
      FeaturesetRunAborts(qs[1..], fetch, FeaturesetWrite(store, fs), k - 1);
      assert qs[..k][1..] == qs[1..][..k - 1];
      assert Gathered(qs[..k], fetch) == fs + Gathered(qs[..k][1..], fetch);
      assert Contents(store) + Gathered(qs[..k], fetch)
             == Contents(store) + fs + Gathered(qs[1..][..k - 1], fetch);
    } else {
      assert qs[..0] == [];
    }
  }
}

=== FILE: progress.dfy ===
/**
 The progress line printed before each batch is downloaded (lines 55-56 and
 113-114 of get_features_via_rest.py). The percentage is modelled as an exact
 real number; its one-decimal float formatting is not modelled.
 */
module Progress {
  import opened Partition

  /** What one progress line reports: the range, the 1-based batch number, the batch count and the percentage. */
  datatype Report = Report(query: Query, batch: nat, numBatches: nat, percent: real)

  /**
   `(batch - 1) / num_batches * 100`: the share of batches completed before
   this one. The first batch reports 0 and no batch of the run reaches 100.
   */
  function Percent(batch: nat, numBatches: nat): (p: real)
    requires numBatches > 0
    ensures 1 <= batch ==> 0.0 <= p
    ensures batch == 1 ==> p == 0.0
    ensures batch <= numBatches ==> p < 100.0
  {
    (batch - 1) as real / numBatches as real * 100.0
  }

  /** A later batch always reports a strictly larger percentage. */
  lemma PercentIncreasing(a: nat, b: nat, numBatches: nat)
    requires numBatches > 0 && a < b
    ensures Percent(a, numBatches) < Percent(b, numBatches)
  {
    var n := numBatches as real;
    assert (b - 1) as real / n - (a - 1) as real / n == (b - a) as real / n;
  }

  /** The progress lines of a complete run over `ids`, in the order they are printed. */
  function Reports(ids: seq<int>, batchSize: int): (rs: seq<Report>)
    requires batchSize > 0
  {
    var plan := Plan(ids, batchSize);
    var n := |plan|;
    seq(n, k requires 0 <= k < n => Report(plan[k], k + 1, n, Percent(k + 1, n)))
  }

  /**
   The progress of a run: one line per query of the plan, in plan order,
   numbered 1 to `ceil(|ids| / batchSize)`, each naming that count; the
   percentage starts at 0, rises strictly from line to line and stays below 100.
   */
  lemma {:induction false} ReportsProgress(ids: seq<int>, batchSize: int)
    requires batchSize > 0
    ensures |Reports(ids, batchSize)| == NumBatches(|ids|, batchSize)
    ensures forall k :: 0 <= k < |Reports(ids, batchSize)| ==>
              && Reports(ids, batchSize)[k].query == Plan(ids, batchSize)[k]
              && Reports(ids, batchSize)[k].batch == k + 1
              && Reports(ids, batchSize)[k].numBatches == NumBatches(|ids|, batchSize)
              && 0.0 <= Reports(ids, batchSize)[k].percent < 100.0
    ensures ids != [] ==> Reports(ids, batchSize)[0].percent == 0.0
    ensures forall k, k' :: 0 <= k < k' < |Reports(ids, batchSize)| ==>
              Reports(ids, batchSize)[k].percent < Reports(ids, batchSize)[k'].percent
  {
    PlanLength(ids, batchSize);
    var rs := Reports(ids, batchSize);
    var n := |rs|;
    assert n == |Plan(ids, batchSize)|;
    forall k | 0 <= k < n
      ensures rs[k] == Report(Plan(ids, batchSize)[k], k + 1, n, Percent(k + 1, n))
    {
    }
    forall k, k' | 0 <= k < k' < n
      ensures rs[k].percent < rs[k'].percent
    {
      PercentIncreasing(k + 1, k' + 1, n);
    }
  }
}

=== FILE: service.dfy ===
/**
 A model of the feature service the downloader queries: a layer whose
 features are listed in OBJECTID order, and the inclusive range filter the
 query `OBJECTID >= x and OBJECTID <= y` applies to it. It states the end
 to end promise behind the partition of get_features_via_rest.py (lines
 41-50): downloading batch by batch returns every feature exactly once.
 */
module Service {
  import opened Wrappers
  import opened Partition
  import opened Payload

  /** A hosted layer: its shared metadata and its features. */
  datatype Layer = Layer(metadata: map<string, string>, features: seq<Feature>)

  /** The answer of the `returnIdsOnly=true` query: the features' object IDs, in order. */
  function ObjectIds(fs: seq<Feature>): seq<int> {
    seq(|fs|, k requires 0 <= k < |fs| => fs[k].oid)
  }

  /** The layer lists its features by strictly ascending object ID. */
  predicate WellFormed(layer: Layer) {
    StrictlyAscending(ObjectIds(layer.features))
  }

  /** The features a range query selects, in layer order. */
  function Select(fs: seq<Feature>, q: Query): seq<Feature> {
    if fs == [] then []
    else (if Contains(q, fs[0].oid) then [fs[0]] else []) + Select(fs[1..], q)
  }

  /** The layer answering every query with its metadata and the selected features. */
  function Serve(layer: Layer): Fetch {
    (q: Query) => Some(Response(layer.metadata, Some(Select(layer.features, q))))
  }

  /** A query that selects exactly the positions `lo .. hi - 1` returns that slice of the features. */
  lemma {:induction false} SelectBand(fs: seq<Feature>, q: Query, lo: nat, hi: nat)
    requires lo <= hi <= |fs|
    requires forall j :: 0 <= j < |fs| ==> (Contains(q, fs[j].oid) <==> lo <= j < hi)
    ensures Select(fs, q) == fs[lo..hi]
    decreases |fs|
  {
    if fs != [] {
      var tail := fs[1..];
      assert forall j :: 0 <= j < |tail| ==> tail[j] == fs[j + 1];
      if lo == 0 && hi > 0 {
        SelectBand(tail, q, 0, hi - 1);
        assert fs[0..hi] == [fs[0]] + tail[0..hi - 1];
      } else if lo == 0 {
        SelectBand(tail, q, 0, 0);
      } else {
        SelectBand(tail, q, lo - 1, hi - 1);
        assert fs[lo..hi] == tail[lo - 1..hi - 1];
      }
    }
  }

  /** Every query is answered, with a feature list. */
  lemma ServeServes(qs: seq<Query>, layer: Layer)
    ensures Served(qs, Serve(layer))
  {
  }

  /** The batch starting at `i` downloads exactly the features at positions `i` to the batch end. */
  lemma ServeBatch(layer: Layer, batchSize: int, i: nat)
    requires WellFormed(layer) && batchSize > 0 && i < |layer.features|
    ensures Select(layer.features, BatchQuery(ObjectIds(layer.features), i, batchSize))
            == layer.features[i..BatchEnd(i, |layer.features|, batchSize) + 1]
  {
    var fs := layer.features;
    var ids := ObjectIds(fs);
    var q := BatchQuery(ids, i, batchSize);
    var j := BatchEnd(i, |fs|, batchSize);
    BatchQuerySelects(ids, i, batchSize);
    forall k | 0 <= k < |fs|
      ensures Contains(q, fs[k].oid) <==> i <= k < j + 1
    {
      assert ids[k] == fs[k].oid;
    }
    SelectBand(fs, q, i, j + 1);
  }

  /** Downloading from stride start `i` is downloading the batch at `i`, then the strides after it. */
  lemma GatheredCons(layer: Layer, batchSize: int, i: nat)
    requires batchSize > 0 && i < |layer.features|
    ensures Served(PlanFrom(ObjectIds(layer.features), batchSize, i), Serve(layer))
    ensures Served(PlanFrom(ObjectIds(layer.features), batchSize, i + batchSize), Serve(layer))
    ensures Gathered(PlanFrom(ObjectIds(layer.features), batchSize, i), Serve(layer))
            == Select(layer.features, BatchQuery(ObjectIds(layer.features), i, batchSize))
               + Gathered(PlanFrom(ObjectIds(layer.features), batchSize, i + batchSize), Serve(layer))
  {
    var ids := ObjectIds(layer.features);
    var qs := PlanFrom(ids, batchSize, i);
    ServeServes(qs, layer);
    ServeServes(qs[1..], layer);
    assert qs[0] == BatchQuery(ids, i, batchSize);
    assert qs[1..] == PlanFrom(ids, batchSize, i + batchSize);
  }

  /** The same step with the batch's features spelled out as a slice of the layer. */
  lemma GatheredStep(layer: Layer, batchSize: int, i: nat)
    requires WellFormed(layer) && batchSize > 0 && i < |layer.features|
    ensures Served(PlanFrom(ObjectIds(layer.features), batchSize, i), Serve(layer))
    ensures Served(PlanFrom(ObjectIds(layer.features), batchSize, i + batchSize), Serve(layer))
    ensures i + batchSize < |layer.features| ==>
              Gathered(PlanFrom(ObjectIds(layer.features), batchSize, i), Serve(layer))
              == layer.features[i..i + batchSize]
                 + Gathered(PlanFrom(ObjectIds(layer.features), batchSize, i + batchSize), Serve(layer))
    ensures i + batchSize >= |layer.features| ==>
              Gathered(PlanFrom(ObjectIds(layer.features), batchSize, i), Serve(layer)) == layer.features[i..]
  {
    GatheredCons(layer, batchSize, i);
    ServeBatch(layer, batchSize, i);
    var fs := layer.features;
    var j := BatchEnd(i, |fs|, batchSize);
    if i + batchSize >= |fs| {
      assert j + 1 == |fs|;
      assert PlanFrom(ObjectIds(fs), batchSize, i + batchSize) == [];
      assert fs[i..j + 1] + [] == fs[i..];
    } else {
      assert j + 1 == i + batchSize;
    }
  }

  /** A slice `fs[i..m]` followed by the rest `fs[m..]` is `fs[i..]`. */
  lemma SliceJoin(fs: seq<Feature>, i: nat, m: nat, whole: seq<Feature>, rest: seq<Feature>)
    requires i <= m <= |fs|
    requires whole == fs[i..m] + rest && rest == fs[m..]
    ensures whole == fs[i..]
  {
    assert fs[i..] == fs[i..m] + fs[m..];
  }

  /** The inductive step: if the strides after `i` download `fs[i + batchSize..]`, those from `i` download `fs[i..]`. */
  lemma GatheredJoin(layer: Layer, batchSize: int, i: nat)
    requires WellFormed(layer) && batchSize > 0 && i + batchSize < |layer.features|
    requires Served(PlanFrom(ObjectIds(layer.features), batchSize, i + batchSize), Serve(layer))
    requires Gathered(PlanFrom(ObjectIds(layer.features), batchSize, i + batchSize), Serve(layer))
             == layer.features[i + batchSize..]
    ensures Gathered(PlanFrom(ObjectIds(layer.features), batchSize, i), Serve(layer)) == layer.features[i..]
  {
    var fs := layer.features;
    GatheredStep(layer, batchSize, i);
    SliceJoin(fs, i, i + batchSize,
              Gathered(PlanFrom(ObjectIds(fs), batchSize, i), Serve(layer)),
              Gathered(PlanFrom(ObjectIds(fs), batchSize, i + batchSize), Serve(layer)));
  }

  /** The batches from stride start `i` on download the features from position `i` on. */
  lemma {:induction false} GatheredFrom(layer: Layer, batchSize: int, i: nat)
    requires WellFormed(layer) && batchSize > 0 && i <= |layer.features|
    ensures Served(PlanFrom(ObjectIds(layer.features), batchSize, i), Serve(layer))
    ensures Gathered(PlanFrom(ObjectIds(layer.features), batchSize, i), Serve(layer)) == layer.features[i..]
    decreases |layer.features| - i
  {
    var fs := layer.features;
    if i < |fs| {
      GatheredStep(layer, batchSize, i);
      if i + batchSize < |fs| {
        GatheredFrom(layer, batchSize, i + batchSize);
        GatheredJoin(layer, batchSize, i);
      }
    } else {
      ServeServes([], layer);
      assert fs[i..] == [];
    }
  }

  /**
   No duplicates and no omissions: for a layer listed by ascending object
   ID, the batches planned over its object IDs download all of its
   features, each exactly once, in order.
   */
  lemma DownloadIsLossless(layer: Layer, batchSize: int)
    requires WellFormed(layer) && batchSize > 0
    ensures Served(Plan(ObjectIds(layer.features), batchSize), Serve(layer))
    ensures Gathered(Plan(ObjectIds(layer.features), batchSize), Serve(layer)) == layer.features
  {
    GatheredFrom(layer, batchSize, 0);
    assert layer.features[0..] == layer.features;
  }
}

=== FILE: strategies.dfy ===
/**
 How the two merge strategies of get_features_via_rest.py relate. They walk
 the same plan (their partition code, lines 37-50 and 95-108, is the same)
 and differ only in how a batch is merged.
 */
module Strategies {
  import opened Wrappers
  import opened Partition
  import opened Payload
  import opened Service

  /**
   When every batch is answered with features, both strategies complete and
   end with the same feature list: the JSON accumulator's `features` is
   exactly what a feature class that did not exist before ends up holding
   (and for an empty ID list both stay without any).
   */
  lemma StrategiesAgree(ids: seq<int>, batchSize: int, fetch: Fetch)
    requires batchSize > 0 && Served(Plan(ids, batchSize), fetch)
    ensures JsonRun(Plan(ids, batchSize), fetch, EmptyDict).Ok?
    ensures FeaturesetRun(Plan(ids, batchSize), fetch, None).1 == Completed
    ensures JsonRun(Plan(ids, batchSize), fetch, EmptyDict).value.features
            == FeaturesetRun(Plan(ids, batchSize), fetch, None).0
  {
    var plan := Plan(ids, batchSize);
    if plan == [] {
      assert JsonRun(plan, fetch, EmptyDict) == Ok(EmptyDict);
      assert FeaturesetRun(plan, fetch, None) == (None, Completed);
    } else {
      var g := Gathered(plan, fetch);
      JsonRunServed(plan, fetch, EmptyDict);
      assert JsonRun(plan, fetch, EmptyDict).value.features == Some(g);
      FeaturesetRunServed(plan, fetch, None);
      var written := FeaturesetRun(plan, fetch, None).0;
      assert written.Some?;
      assert Contents(written) == g;
      assert written == Some(g);
    }
  }

  /**
   A fetch that fails at batch `k` stops both strategies at that batch with
   the same error, and no later batch is requested. The JSON strategy has
   produced nothing to convert; the feature-set strategy has written the
   batches before `k` and nothing else.
   */
  lemma StrategiesStopTogether(ids: seq<int>, batchSize: int, fetch: Fetch, target: Option<seq<Feature>>, k: nat)
    requires batchSize > 0 && k < |Plan(ids, batchSize)|
    requires Served(Plan(ids, batchSize)[..k], fetch) && fetch(Plan(ids, batchSize)[k]).None?
    ensures JsonRun(Plan(ids, batchSize), fetch, EmptyDict) == Err(FetchFailed(Plan(ids, batchSize)[k]))
    ensures FeaturesetRun(Plan(ids, batchSize), fetch, target).1 == Aborted(FetchFailed(Plan(ids, batchSize)[k]))
    ensures Contents(FeaturesetRun(Plan(ids, batchSize), fetch, target).0)
            == Contents(target) + Gathered(Plan(ids, batchSize)[..k], fetch)
  {
    var plan := Plan(ids, batchSize);
    JsonRunFetchFails(plan, fetch, EmptyDict, k);
    FeaturesetRunAborts(plan, fetch, target, k);
  }

  /**
   A response without `features` at a batch `k` after the first stops both
   strategies there with the same error: the JSON strategy raises on the
   missing key, the feature-set load fails. The feature class keeps the
   batches before `k`.
   */
  lemma StrategiesStopTogetherOnMissingFeatures(ids: seq<int>, batchSize: int, fetch: Fetch,
                                                target: Option<seq<Feature>>, k: nat)
    requires batchSize > 0 && 0 < k < |Plan(ids, batchSize)|
    requires Served(Plan(ids, batchSize)[..k], fetch)
    requires fetch(Plan(ids, batchSize)[k]).Some? && fetch(Plan(ids, batchSize)[k]).value.features.None?
    ensures JsonRun(Plan(ids, batchSize), fetch, EmptyDict) == Err(MissingFeatures(Plan(ids, batchSize)[k]))
    ensures FeaturesetRun(Plan(ids, batchSize), fetch, target).1
            == Aborted(MissingFeatures(Plan(ids, batchSize)[k]))
    ensures Contents(FeaturesetRun(Plan(ids, batchSize), fetch, target).0)
            == Contents(target) + Gathered(Plan(ids, batchSize)[..k], fetch)
  {
    var plan := Plan(ids, batchSize);
    JsonRunMissingFeatures(plan, fetch, EmptyDict, k);
    FeaturesetRunAborts(plan, fetch, target, k);
  }

  /**
   Where the strategies part: a first response without a `features` key.
   The JSON strategy copies it into the accumulator and carries on (its
   check looks at the accumulator, not the batch); the feature-set strategy
   cannot load it and stops with the target untouched.
   */
  lemma StrategiesDifferOnFeaturelessFirstBatch(qs: seq<Query>, fetch: Fetch, target: Option<seq<Feature>>)
    requires qs != [] && fetch(qs[0]).Some? && fetch(qs[0]).value.features.None?
    ensures JsonRun(qs, fetch, EmptyDict) == JsonRun(qs[1..], fetch, fetch(qs[0]).value)
    ensures FeaturesetRun(qs, fetch, target) == (target, Aborted(MissingFeatures(qs[0])))
  {
  }

  /**
   End to end: downloading a layer listed by ascending object ID, batch
   by batch over its object IDs, gives back the layer itself with either
   strategy. The JSON accumulator holds the layer's metadata and all its
   features; a feature class that did not exist ends up with all the features.
   */
  lemma BothStrategiesRecoverLayer(layer: Layer, batchSize: int)
    requires WellFormed(layer) && batchSize > 0 && layer.features != []
    ensures JsonRun(Plan(ObjectIds(layer.features), batchSize), Serve(layer), EmptyDict)
            == Ok(Response(layer.metadata, Some(layer.features)))
    ensures FeaturesetRun(Plan(ObjectIds(layer.features), batchSize), Serve(layer), None)
            == (Some(layer.features), Completed)
  {
    var plan := Plan(ObjectIds(layer.features), batchSize);
    DownloadIsLossless(layer, batchSize);
    JsonRunServed(plan, Serve(layer), EmptyDict);
    FeaturesetRunServed(plan, Serve(layer), None);
    var run := FeaturesetRun(plan, Serve(layer), None);
    assert run.0.Some?;
    assert Contents(run.0) == layer.features;
    assert run == (Some(layer.features), Completed);
  }
}

=== FILE: wrappers.dfy ===
/** Failure-carrying datatypes shared by the rest of the model. */
module Wrappers {

  /** A value that may be absent. */
  datatype Option<+T> = None | Some(value: T)

  /** The outcome of a computation that either produces a value or raises an error. */
  datatype Result<+T, +E> = Ok(value: T) | Err(error: E)
}
